=== FILE: README.md ===
# simple-metrics-agent in Dafny

A Dafny model of the decidable core of `simple-metrics-agent`, a small C++ host-metrics agent.
It covers four components. Each OS call is replaced by explicit inputs that describe what the call answered.

- **Endpoint parsing and the TCP delivery client** (`net.dfy`, `tcp_client.dfy`).
  - `parse_endpoint` splits `host:port` at the rightmost colon and checks that the port is all digits.
  - `TcpClient` is a two-state machine: `sock < 0` means disconnected, `sock >= 0` means connected.
  - `connect` walks the resolver's address list in order. Each address is given as "socket failed" or "socket gave fd, and connect did or did not succeed".
  - `send_all` walks a finite sequence of `send` returns: a positive count, 0, `EINTR`, or another error.
  - The process's open-descriptor table is part of the state. This lets the contracts say that no descriptor leaks and that the client holds at most one.
- **Command-line parsing** (`config.dfy`).
  - `std::from_chars` on a `long long` is modelled with its `ptr`/`ec` results.
  - `parse_interval_seconds` wraps it, and `parse_args` scans `argv[1..]` left to right.
- **Metric-result interpretation** (`metrics.dfy`).
  - Covers how many load samples were reported, Linux `mem_unit` defaulting, and macOS free-page arithmetic.
  - Memory products wrap modulo 2^64.
  - Covers the short-circuit order of `collect_host_metrics`.
  - Load averages are opaque `double` bit patterns that are only copied.
- **Hostname extraction** (`hostname.dfy`). The 256-byte buffer is forced to end in NUL, the name is the text before the first NUL, and an empty name is an error.

`decimal.dfy` holds digit-string helpers: the value of a digit string and the canonical decimal rendering used for round trips. `posix_error.dfy` holds `errno_message`. The errno text from the C++ runtime cannot be seen, so it is a parameter (`cause`) wherever it appears.

In-out parameters of the C++ functions are modelled as "value before, value after". Examples are `parse_endpoint`'s `out`/`error` and the metrics `out`/`error`. This lets the contracts say which outputs a call leaves untouched.

The code's default endpoint is `127.0.0.1:9000` (src/config.hpp:8). The repository's default-config unit test expects `127.0.0.1:9090` (tests/unit_tests.cpp:37), which the code does not produce. The model follows the code (`Config.DefaultConfig`).

Two behaviours of the code are worth noting:
- A malformed port such as `host:abc` is refused only after the split has been stored in `out`. So a failed parse can leave partial state (`Net.ParseEndpoint`, `Net.PortRefusal`).
- The run loop only logs and sleeps. It does not sample, format or send anything. No JSON record format exists in the code, so none is modelled.

## Model

| member | source | states |
|---|---|---|
| `PosixError.ErrnoMessage` | src/posix_error.hpp:7-13 | the message begins with the name of the failed call followed by ": " |
| `Net.LastIndexOf` | src/net.cpp:16 | the rightmost occurrence: -1 exactly when the character is absent, otherwise an index holding it with no occurrence after it |
| `Net.ParseEndpoint` | src/net.cpp:15-33 | on success `text` is host ":" port with no colon in the port, both parts non-empty, port all digits, `error` untouched; a failure carries one of the two messages; the shape error leaves `out` untouched; the port error has already stored a split whose port is not all digits |
| `Net.ShapeRefusals` | src/net.cpp:16-20 | no colon, a last colon at index 0, or a colon as the last character is refused with the shape message and `out` unchanged |
| `Net.JoinThenParse` | src/net.cpp:15-33 | every non-empty host (colons allowed) joined to a non-empty digit port parses back to exactly those parts; with the success clauses this makes acceptance an if-and-only-if, and accepts `h:0`, `h:99999` since there is no range check |
| `Net.PortRefusal` | src/net.cpp:22-29 | a well-shaped text whose port is not all digits is refused with the port message, and `out` already holds the split host and port |
| `TcpClient.IsConnected` | src/net.hpp:31-33 | `is_connected`: the client is connected exactly when its descriptor is non-negative; its meaning against the descriptor table is stated by `TcpClient.ConnectedState` |
| `TcpClient.ConnectedState` | src/net.hpp:31-33 | for a client consistent with the descriptor table, `is_connected` (`sock >= 0`) is false exactly when `sock` is -1 and true exactly when it holds an open descriptor |
| `TcpClient.NewClient` | src/net.cpp:35-36 | a constructed client is disconnected and consistent with any descriptor table |
| `TcpClient.Close` | src/net.cpp:42-47 | from either state the client ends disconnected; exactly the held descriptor is released, and nothing when none was held |
| `TcpClient.CloseIdempotent` | src/net.cpp:42-47 | closing twice equals closing once |
| `TcpClient.Connect` | src/net.cpp:49-91 | when already connected it succeeds without resolving; otherwise it succeeds exactly when some address connects; the socket kept is the first address that connects, and all earlier ones failed; a failed attempt's socket is closed, so the table gains only the kept socket; a resolver failure or all addresses failing leave it disconnected with the matching message; no descriptor leaks |
| `TcpClient.SendAll` | src/net.cpp:93-122 | success holds exactly when connected and the returns deliver all bytes through positive writes and `EINTR` retries; what was sent is always a prefix of the data, and all of it on success; not connected gives the fixed message with no call; a zero return or another error closes the socket with the matching message; the loop stops at the first such return, every earlier return being a positive write or `EINTR`; the bytes sent are the sum of the positive counts returned; on success the last call is the write that empties the buffer; empty data makes no call; no descriptor leaks |
| `TcpClient.SendLine` | src/net.cpp:124-130 | behaves as `SendAll` on the line plus a newline; on success exactly `line + "\n"` was sent, and a connected call makes at least one send |
| `Config.FromChars` | src/config.cpp:18 | `std::from_chars`: `invalid_argument` at position 0 exactly when no digit follows the optional '-'; otherwise `ptr` stops just after the longest '-'-and-digits prefix, `result_out_of_range` is reported exactly when that numeral lies outside `long long`, a success yields the numeral's value, and an error leaves the output untouched |
| `Config.FromCharsWhole` | src/config.cpp:18-22 | the whole text is consumed without error exactly when it is an optional '-' plus digits denoting a `long long`, and the value is that integer |
| `Config.ParseIntervalSeconds` | src/config.cpp:12-30 | an accepted text is all digits (no sign, no whitespace) and denotes a positive `long long`; errors carry one of the two messages; the positivity message only for a well-formed integer at most 0 |
| `Config.ParseIntervalClassifies` | src/config.cpp:12-30 | every text is classified by its whole-text shape: not an in-range integer gives the syntax error, a non-positive integer the positivity error, otherwise its value |
| `Config.ParseIntervalOfText` | src/config.cpp:18-29 | every positive `long long` written in decimal is read back as itself |
| `Config.ParseIntervalLeadingZero` | src/config.cpp:18-22 | leading zeros are accepted and do not change the result |
| `Config.ParseIntervalRejectsMinus` | src/config.cpp:18-26 | a '-' followed by digits is never accepted; within range (including "-0") it is the positivity error |
| `Config.ParseIntervalOverflow` | src/config.cpp:18-22 | a number above the `long long` range is the syntax error, not the positivity error |
| `Config.ParseIntervalExamples` | src/config.cpp:12-30 | the unit tests' values: "10" is 10, "abc" is the syntax error, "-5" the positivity error |
| `Config.ParseIntervalEdgeCases` | src/config.cpp:12-30 | "", "+5", " 5", "5s" are syntax errors; "0" and "-0" are positivity errors |
| `Config.Scan` | src/config.cpp:37-92 | `Error` exactly when the message is non-empty; non-`Ok` results carry the default config; an `Ok` scan keeps a positive interval positive, and each string value is the prior one or one of the arguments; `Help` only when a help flag occurs |
| `Config.ParseArgs` | src/config.cpp:33-93 | `Ok` implies a positive interval; `Error` implies a non-empty message; no arguments give `Ok` with the defaults (endpoint 127.0.0.1:9000, interval 5, empty hostname) |
| `Config.ProgramNameIgnored` | src/config.cpp:37 | `argv[0]` never influences the result |
| `Config.HelpIgnoresRest` | src/config.cpp:40-44 | once a help flag is scanned, anything appended afterwards leaves the result unchanged |
| `Config.ScanComposes` | src/config.cpp:37-92 | a cleanly scanned prefix passes its configuration on, so a repeated flag keeps its last value |
| `Config.ScanEndpointStep` | src/config.cpp:46-54 | `--endpoint` stores the next argument verbatim, even one that looks like a flag, and is not validated |
| `Config.ScanIntervalStep` | src/config.cpp:56-72 | `--interval` stores the parsed value or stops with the parser's own message |
| `Config.ScanHostnameStep` | src/config.cpp:74-82 | `--hostname` stores the next argument verbatim |
| `Config.ScanMissingValue` | src/config.cpp:46-82 | a value flag as the last argument is an error "Missing value for <flag>" |
| `Config.ScanUnknown` | src/config.cpp:84-87 | any other argument stops the scan with "Unknown argument: " followed by it |
| `Config.RenderThenScan` | src/config.cpp:37-92 | scanning any list of valid settings written as flags, from any configuration, gives that configuration with the settings applied in order and no error |
| `Config.RenderThenParse` | src/config.cpp:33-93 | any list of valid settings written as flags parses to the defaults with those settings applied in order |
| `Config.ParseArgsExamples` | src/config.cpp:33-93 | the repository's unit-test argument lists give the results those tests expect, with the default endpoint as the code has it; `--endpoint --help` sets the endpoint to "--help" |
| `Metrics.MulWrap` | src/metrics.cpp:57-58 | the unsigned 64-bit product is congruent to the true product modulo 2^64, and equal to it when it fits |
| `Metrics.CollectLoad` | src/metrics.cpp:25-44 | a failure changes no field and gives the "getloadavg" message; otherwise the k-th load field is overwritten exactly when at least k+1 samples were reported, memory is untouched and `error` is not written |
| `Metrics.UnreportedLoadsStayZero` | src/metrics.cpp:33-41 | starting from a fresh struct, averages the platform did not report stay 0.0 and the call succeeds |
| `Metrics.UnitBytes` | src/metrics.cpp:55 | the unit is at least 1 and equals `mem_unit` when that is non-zero |
| `Metrics.CollectMemoryLinux` | src/metrics.cpp:48-61 | a failure changes no field; on success both memory fields are the counts times the unit as wrapping 64-bit products, and load fields and `error` are untouched |
| `Metrics.MemUnitZeroIsOne` | src/metrics.cpp:55-58 | `mem_unit` 0 behaves exactly like 1, giving the raw counts |
| `Metrics.LinuxBytesExact` | src/metrics.cpp:55-58 | when free ≤ total and the total fits in 64 bits, both fields are exact byte counts and free memory stays at most total |
| `Metrics.LinuxProductWraps` | src/metrics.cpp:57 | the product wraps rather than saturating (2^62 units of 4 bytes give 0) |
| `Metrics.CollectMemoryMacos` | src/metrics.cpp:67-103 | succeeds exactly when all three queries succeed; the first failing query, in order, gives its message and no field is written; on success the total is `hw.memsize` and free is (free + inactive) pages times the page size, wrapping |
| `Metrics.MacosFreeBytesExact` | src/metrics.cpp:94-97 | with pages below 2^31 bytes the free figure is exactly the bytes in free and inactive pages |
| `Metrics.CollectHostMetrics` | src/metrics.cpp:109-125 | succeeds exactly when load and the platform's memory source succeed; a load failure returns before memory is consulted; once load succeeds the result is that of the platform's memory source on the loaded struct, so a memory failure keeps the load fields already written and reports that source's message; another platform never touches memory; `error` is written only on failure |
| `Hostname.CString` | src/hostname.cpp:28 | the name is a prefix of the buffer, contains no NUL, and stops at a NUL or at the buffer's end |
| `Hostname.Terminate` | src/hostname.cpp:26 | the last byte is NUL and the first 255 are unchanged |
| `Hostname.DetectHostname` | src/hostname.cpp:15-36 | success means a non-empty, NUL-free name of at most 255 characters taken from the buffer's start, and an empty error; failure means an empty name and a non-empty error; success holds exactly when the first byte is not NUL |
| `Hostname.DetectsWrittenName` | src/hostname.cpp:26-34 | a name of 1 to 255 NUL-free characters followed by NUL and anything is detected as exactly that name |
| `Hostname.CStringOfTerminated` | src/hostname.cpp:28 | the C string of name + NUL + anything is the name |
| `Hostname.TruncatedName` | src/hostname.cpp:25-28 | a buffer with no NUL in its first 255 bytes yields those 255 bytes |

## Left out

- `src/agent.cpp`: the signal handler, signal installation, the sleep, and wall-clock formatting are asynchronous and timing behaviour. The loop samples and sends nothing, so it has no decidable behaviour to model.
- `src/main.cpp` and `print_usage`: console output and exit-code dispatch.
- The OS and library calls (`getaddrinfo`, `socket`, `connect`, `send`, `close`, `getloadavg`, `sysinfo`, `sysctlbyname`, `host_statistics64`, `host_page_size`, `gethostname`): each appears only as the inputs describing its result.
- The errno message text (`std::error_code::message`) and `gai_strerror` text: these are string parameters.
- Floating-point load values: kept as opaque 64-bit patterns and only copied.
- `TcpClient::~TcpClient`: it only calls `close`, which is modelled.
- TcpClient.SendAll: a `send` that keeps returning `EINTR` forever is not modelled. The precondition `Completes` asks that the given returns end the loop, and that no positive return exceeds the bytes still to write, which the kernel guarantees.
- TcpClient.SendAll: a `SendFailed` return stands for `send` returning -1 with an errno. `send` is called without `MSG_NOSIGNAL`, and nothing in the program ignores SIGPIPE. So on a connection the peer has reset, the signal ends the process before -1/`EPIPE` comes back. The model assumes SIGPIPE is ignored or blocked.
- TcpClient.Connect: the precondition `FreshDescriptors` assumes `socket` never returns a descriptor that is already open, which the kernel guarantees.
- Hostname.DetectHostname: the buffer is given as its 256 characters after a successful `gethostname`.
- Byte strings: the C++ `std::string`/`std::string_view` bytes of the endpoint text, the arguments and the hostname buffer are modelled as `char`. The code only compares them with ASCII characters (':', digits, '-', NUL, the flag names), so the behaviour is the same.

=== FILE: config.dfy ===
/**
 Command-line configuration: the `--interval` value parser, which wraps
 `std::from_chars` on a `long long`, and the left-to-right scanner over the
 arguments that yields a configuration, a request for help, or an error.
 */
module Config {
  import opened Decimal

  const LongLongMin: int := -0x8000_0000_0000_0000
  const LongLongMax: int := 0x7FFF_FFFF_FFFF_FFFF

  // ---------------------------------------------------------------------------
  // std::from_chars for a signed integer in base 10

  datatype Errc = NoError | InvalidArgument | ResultOutOfRange

  /** What `from_chars` reports: how far it read (`ptr`, an index), its error code, and the output variable afterwards. */
  datatype FromCharsResult = FromCharsResult(ptr: nat, ec: Errc, value: int)

  /** Length of the longest prefix of `s` made of decimal digits. */
  function DigitRun(s: string): (n: nat)
    ensures n <= |s| && AllDigits(s[..n])
    ensures n < |s| ==> !IsDigit(s[n])
  {
    if |s| == 0 || !IsDigit(s[0]) then 0
    else
      var n := 1 + DigitRun(s[1..]);
      assert s[..n] == [s[0]] + s[1..][..n - 1];
      n
  }

  /**
   Reads an optional '-' and then as many digits as follow. With no digit it
   reports `InvalidArgument` at position 0; with a value outside `long long` it
   reports `ResultOutOfRange` after the digits. On an error the output variable
   keeps its prior `value`. Neither '+' nor leading whitespace is accepted.
   */
  /** `text` does not start with an optional '-' followed by a digit. */
  predicate NoNumeral(text: string) {
    || |text| == 0
    || (!IsDigit(text[0]) && text[0] != '-')
    || (text[0] == '-' && (|text| == 1 || !IsDigit(text[1])))
  }

  /** `text[..ptr]` is the longest prefix of `text` made of an optional '-' and digits. */
  predicate NumeralEndsAt(text: string, ptr: nat) {
    ptr <= |text| && IsWholeInteger(text[..ptr]) && (ptr == |text| || !IsDigit(text[ptr]))
  }

  /**
   Given a numeral read up to `r.ptr`: out of range is reported exactly when the
   numeral lies outside `long long`, the output keeps its prior `value` then, and
   otherwise it is the numeral's value.
   */
  predicate ReportsNumeral(text: string, value: int, r: FromCharsResult)
    requires NumeralEndsAt(text, r.ptr)
  {
    var v := IntegerValue(text[..r.ptr]);
    && r.ec != InvalidArgument
    && (r.ec == ResultOutOfRange <==> !(LongLongMin <= v <= LongLongMax))
    && (r.ec == ResultOutOfRange ==> r.value == value)
    && (r.ec == NoError ==> r.value == v)
  }

  function FromChars(text: string, value: int): (r: FromCharsResult)
    ensures r.ec == InvalidArgument <==> NoNumeral(text)
    ensures r.ec == InvalidArgument ==> r.ptr == 0 && r.value == value
    ensures r.ec != InvalidArgument ==> NumeralEndsAt(text, r.ptr) && 0 < r.ptr && ReportsNumeral(text, value, r)
  {
    var start := if |text| > 0 && text[0] == '-' then 1 else 0;
    var n := DigitRun(text[start..]);
    if n == 0 then FromCharsResult(0, InvalidArgument, value)
    else
      assert text[start..start + n] == text[start..][..n];
      var magnitude := Value(text[start..start + n]);
      assert text[..start + n][start..] == text[start..start + n];
      assert start == 0 ==> text[..start + n] == text[start..start + n];
      var v: int := if start == 1 then -(magnitude as int) else magnitude;
      if v < LongLongMin || v > LongLongMax then FromCharsResult(start + n, ResultOutOfRange, value)
      else FromCharsResult(start + n, NoError, v)
  }

  /** `text` is, in its entirety, an optional '-' followed by one or more decimal digits. */
  predicate IsWholeInteger(text: string) {
    || (|text| > 0 && AllDigits(text))
    || (|text| > 1 && text[0] == '-' && AllDigits(text[1..]))
  }

  function IntegerValue(text: string): int
    requires IsWholeInteger(text)
  {
    if text[0] == '-' then -(Value(text[1..]) as int) else Value(text)
  }

  lemma {:induction false} DigitRunOfDigits(s: string)
    requires AllDigits(s)
    ensures DigitRun(s) == |s|
  {
    if |s| > 0 {
      DigitRunOfDigits(s[1..]);
    }
  }

  /**
   `from_chars` consumes the whole text without error exactly when the text is
   an optional '-' and digits denoting a `long long`, and then it yields that
   number.
   */
  lemma FromCharsWhole(text: string, value: int)
    ensures var r := FromChars(text, value);
      (r.ec == NoError && r.ptr == |text|) <==>
      (IsWholeInteger(text) && LongLongMin <= IntegerValue(text) <= LongLongMax)
    ensures var r := FromChars(text, value);
      r.ec == NoError && r.ptr == |text| ==> r.value == IntegerValue(text)
  {
    var start := if |text| > 0 && text[0] == '-' then 1 else 0;
    var r := FromChars(text, value);
    if r.ec == NoError && r.ptr == |text| {
      assert text[start..][..|text| - start] == text[start..];
      if start == 0 {
        assert text[0..] == text;
      }
    }
    if IsWholeInteger(text) {
      if text[0] == '-' {
        DigitRunOfDigits(text[1..]);
        assert text[1..1 + |text[1..]|] == text[1..];
      } else {
        DigitRunOfDigits(text);
        assert text[0..] == text && text[0..|text|] == text;
      }
    }
  }

  // ---------------------------------------------------------------------------
  // parse_interval_seconds

  datatype IntervalParse = IntervalOk(seconds: int) | IntervalError(message: string)

  const InvalidIntervalError: string := "Invalid value for --interval (expected integer seconds)"
  const NonPositiveIntervalError: string := "Interval must be positive seconds"

  /**
   The `--interval` value: the whole text must be read by `from_chars` without
   error, and the number must then be positive.
   */
  function ParseIntervalSeconds(text: string): (r: IntervalParse)
    ensures r.IntervalOk? ==> |text| > 0 && AllDigits(text) && r.seconds == Value(text) && 0 < r.seconds <= LongLongMax
    ensures r.IntervalError? ==> r.message == InvalidIntervalError || r.message == NonPositiveIntervalError
    ensures r == IntervalError(NonPositiveIntervalError) ==>
      IsWholeInteger(text) && LongLongMin <= IntegerValue(text) <= 0
  {
    var fc := FromChars(text, 0);
    FromCharsWhole(text, 0);
    if fc.ec != NoError || fc.ptr != |text| then IntervalError(InvalidIntervalError)
    else if fc.value <= 0 then IntervalError(NonPositiveIntervalError)
    else IntervalOk(fc.value)
  }

  /**
   The interval parser classifies every text by its whole-text shape: not an
   integer in `long long` range gives the syntax error, a non-positive integer
   the positivity error, and anything else its value.
   */
  lemma ParseIntervalClassifies(text: string)
    ensures ParseIntervalSeconds(text) ==
      if !(IsWholeInteger(text) && LongLongMin <= IntegerValue(text) <= LongLongMax) then IntervalError(InvalidIntervalError)
      else if IntegerValue(text) <= 0 then IntervalError(NonPositiveIntervalError)
      else IntervalOk(IntegerValue(text))
  {
    FromCharsWhole(text, 0);
  }

  /** Every positive `long long`, written in decimal, is read back as itself. */
  lemma ParseIntervalOfText(n: int)
    requires 0 < n <= LongLongMax
    ensures ParseIntervalSeconds(Text(n)) == IntervalOk(n)
  {
    ValueOfText(n);
    ParseIntervalClassifies(Text(n));
  }

  /** Leading zeros are accepted: "007" is 7. */
  lemma ParseIntervalLeadingZero(s: string)
    requires |s| > 0 && AllDigits(s)
    ensures ParseIntervalSeconds("0" + s) == ParseIntervalSeconds(s)
  {
    LeadingZero(s);
    ParseIntervalClassifies("0" + s);
    ParseIntervalClassifies(s);
  }

  /** A '-' followed by digits is never accepted: it is either zero or negative, or out of range. */
  lemma ParseIntervalRejectsMinus(s: string)
    requires |s| > 0 && AllDigits(s)
    ensures ParseIntervalSeconds("-" + s).IntervalError?
    ensures Value(s) <= -LongLongMin ==> ParseIntervalSeconds("-" + s) == IntervalError(NonPositiveIntervalError)
  {
    var t := "-" + s;
    assert t[1..] == s;
    ParseIntervalClassifies(t);
  }

  /** Any number above the `long long` range overflows and is a syntax error, not a positivity error. */
  lemma ParseIntervalOverflow(n: nat)
    requires n > LongLongMax
    ensures ParseIntervalSeconds(Text(n)) == IntervalError(InvalidIntervalError)
  {
    ValueOfText(n);
    ParseIntervalClassifies(Text(n));
  }

  /** The values the repository's unit tests give the parser: "10", "abc" and "-5". */
  lemma ParseIntervalExamples()
    ensures ParseIntervalSeconds("10") == IntervalOk(10)
    ensures ParseIntervalSeconds("abc") == IntervalError(InvalidIntervalError)
    ensures ParseIntervalSeconds("-5") == IntervalError(NonPositiveIntervalError)
  {
    ParseIntervalClassifies("10");
    ParseIntervalClassifies("abc");
    ParseIntervalClassifies("-5");
    assert "10"[..1] == "1";
    assert "-5"[1..] == "5";
  }

  /** Further edge cases: an empty text, a sign or space `from_chars` rejects, a trailing unit, and zero. */
  lemma ParseIntervalEdgeCases()
    ensures ParseIntervalSeconds("") == IntervalError(InvalidIntervalError)
    ensures ParseIntervalSeconds("+5") == IntervalError(InvalidIntervalError)
    ensures ParseIntervalSeconds(" 5") == IntervalError(InvalidIntervalError)
    ensures ParseIntervalSeconds("5s") == IntervalError(InvalidIntervalError)
    ensures ParseIntervalSeconds("0") == IntervalError(NonPositiveIntervalError)
    ensures ParseIntervalSeconds("-0") == IntervalError(NonPositiveIntervalError)
  {
    ParseIntervalClassifies("");
    ParseIntervalClassifies("+5");
    ParseIntervalClassifies(" 5");
    ParseIntervalClassifies("5s");
    ParseIntervalClassifies("0");
    ParseIntervalClassifies("-0");
    assert "-0"[1..] == "0";
  }

  // ---------------------------------------------------------------------------
  // parse_args

  datatype ParseStatus = Ok | Help | Error

  /** The agent's settings; `interval` is in seconds. */
  datatype AgentConfig = AgentConfig(endpoint: string, interval: int, hostname: string)

  /** `config` is meaningful only for `Ok`, `error` only for `Error`. */
  datatype ParseResult = ParseResult(status: ParseStatus, config: AgentConfig, error: string)

  /**
   The defaults. The code's default endpoint is "127.0.0.1:9000" (src/config.hpp:8,
   repeated in the usage text); the repository's default-config unit test expects
   "127.0.0.1:9090" (tests/unit_tests.cpp:37), which the code does not produce.
   This model follows the code.
   */
  const DefaultConfig: AgentConfig := AgentConfig("127.0.0.1:9000", 5, "")

  function Failure(message: string): ParseResult {
    ParseResult(Error, DefaultConfig, message)
  }

  predicate IsHelpFlag(arg: string) {
    arg == "--help" || arg == "-h"
  }

  predicate IsKnownFlag(arg: string) {
    IsHelpFlag(arg) || arg == "--endpoint" || arg == "--interval" || arg == "--hostname"
  }

  /**
   Scans `args` left to right with the configuration built so far. A help flag
   stops the scan; a value flag consumes the next argument verbatim (even one
   that looks like a flag); the first problem stops the scan with its message.
   */
  function Scan(args: seq<string>, cfg: AgentConfig): (r: ParseResult)
    ensures (r.status == Error) == (|r.error| > 0)
    ensures r.status != Ok ==> r.config == DefaultConfig
    ensures r.status == Ok && cfg.interval > 0 ==> r.config.interval > 0
    ensures r.status == Ok ==> r.config.endpoint == cfg.endpoint || r.config.endpoint in args
    ensures r.status == Ok ==> r.config.hostname == cfg.hostname || r.config.hostname in args
    ensures r.status == Help ==> exists k :: 0 <= k < |args| && IsHelpFlag(args[k])
    decreases |args|
  {
    if |args| == 0 then ParseResult(Ok, cfg, "")
    else
      var arg := args[0];
      if IsHelpFlag(arg) then ParseResult(Help, DefaultConfig, "")
      else if arg == "--endpoint" then
        if |args| < 2 then Failure("Missing value for --endpoint")
        else Scan(args[2..], cfg.(endpoint := args[1]))
      else if arg == "--interval" then
        if |args| < 2 then Failure("Missing value for --interval")
        else
          match ParseIntervalSeconds(args[1])
          case IntervalError(message) => Failure(message)
          case IntervalOk(seconds) => Scan(args[2..], cfg.(interval := seconds))
      else if arg == "--hostname" then
        if |args| < 2 then Failure("Missing value for --hostname")
        else Scan(args[2..], cfg.(hostname := args[1]))
      else Failure("Unknown argument: " + arg)
  }

  /**
   `parse_args(argc, argv)` with `argv` as a sequence: the program name
   `argv[0]` is skipped and never inspected. An `Ok` result always carries a
   positive interval, and an `Error` result a non-empty message.
   */
  function ParseArgs(argv: seq<string>): (r: ParseResult)
    ensures r.status == Ok ==> r.config.interval > 0
    ensures (r.status == Error) == (|r.error| > 0)
    ensures r.status != Ok ==> r.config == DefaultConfig
    ensures |argv| <= 1 ==> r == ParseResult(Ok, DefaultConfig, "")
  {
    if |argv| <= 1 then ParseResult(Ok, DefaultConfig, "")
    else Scan(argv[1..], DefaultConfig)
  }

  /** The program name has no influence on the result. */
  lemma ProgramNameIgnored(p: string, q: string, args: seq<string>)
    ensures ParseArgs([p] + args) == ParseArgs([q] + args)
  {
    assert ([p] + args)[1..] == args == ([q] + args)[1..];
  }

  /** A help flag ends the scan: whatever follows it is never looked at. */
  lemma {:induction false} HelpIgnoresRest(a: seq<string>, b: seq<string>, cfg: AgentConfig)
    requires Scan(a, cfg).status == Help
    ensures Scan(a + b, cfg) == Scan(a, cfg)
    decreases |a|
  {
    assert (a + b)[0] == a[0];
    var arg := a[0];
    if !IsHelpFlag(arg) {
      assert |a| >= 2;
      assert (a + b)[1] == a[1] && (a + b)[2..] == a[2..] + b;
      if arg == "--endpoint" {
        HelpIgnoresRest(a[2..], b, cfg.(endpoint := a[1]));
      } else if arg == "--interval" {
        HelpIgnoresRest(a[2..], b, cfg.(interval := ParseIntervalSeconds(a[1]).seconds));
      } else {
        HelpIgnoresRest(a[2..], b, cfg.(hostname := a[1]));
      }
    }
  }

  /**
   A prefix that scans cleanly hands its configuration on: scanning `a + b`
   is scanning `b` starting from what `a` produced. So a repeated flag keeps
   its last value, and a value flag at the very end is always an error.
   */
  lemma {:induction false} ScanComposes(a: seq<string>, b: seq<string>, cfg: AgentConfig)
    requires Scan(a, cfg).status == Ok
    ensures Scan(a + b, cfg) == Scan(b, Scan(a, cfg).config)
    decreases |a|
  {
    if |a| == 0 {
      assert a + b == b;
    } else {
      var arg := a[0];
      assert (a + b)[0] == arg;
      assert |a| >= 2;
      assert (a + b)[1] == a[1] && (a + b)[2..] == a[2..] + b;
      if arg == "--endpoint" {
        ScanComposes(a[2..], b, cfg.(endpoint := a[1]));
      } else if arg == "--interval" {
        ScanComposes(a[2..], b, cfg.(interval := ParseIntervalSeconds(a[1]).seconds));
      } else {
        ScanComposes(a[2..], b, cfg.(hostname := a[1]));
      }
    }
  }

  /** `--endpoint` takes the next argument verbatim, whatever it looks like. */
  lemma ScanEndpointStep(v: string, rest: seq<string>, cfg: AgentConfig)
    ensures Scan(["--endpoint", v] + rest, cfg) == Scan(rest, cfg.(endpoint := v))
  {
    assert (["--endpoint", v] + rest)[2..] == rest;
  }

  /** `--hostname` takes the next argument verbatim, whatever it looks like. */
  lemma ScanHostnameStep(v: string, rest: seq<string>, cfg: AgentConfig)
    ensures Scan(["--hostname", v] + rest, cfg) == Scan(rest, cfg.(hostname := v))
  {
    assert (["--hostname", v] + rest)[2..] == rest;
  }

  /** `--interval` takes the next argument and either stores its value or stops with the parser's message. */
  lemma ScanIntervalStep(v: string, rest: seq<string>, cfg: AgentConfig)
    ensures var p := ParseIntervalSeconds(v);
      Scan(["--interval", v] + rest, cfg) ==
        if p.IntervalOk? then Scan(rest, cfg.(interval := p.seconds)) else Failure(p.message)
  {
    assert (["--interval", v] + rest)[2..] == rest;
  }

  /** A value flag as the last argument is an error naming the flag. */
  lemma ScanMissingValue(flag: string, cfg: AgentConfig)
    requires flag == "--endpoint" || flag == "--interval" || flag == "--hostname"
    ensures Scan([flag], cfg) == Failure("Missing value for " + flag)
  {
  }

  /** Any argument that is not one of the four flags stops the scan and is named in the message. */
  lemma ScanUnknown(arg: string, rest: seq<string>, cfg: AgentConfig)
    requires !IsKnownFlag(arg)
    ensures Scan([arg] + rest, cfg) == Failure("Unknown argument: " + arg)
  {
  }

  /** One setting as a user writes it on the command line. */
  datatype Setting = SetEndpoint(endpoint: string) | SetInterval(seconds: int) | SetHostname(hostname: string)

  predicate ValidSetting(s: Setting) {
    s.SetInterval? ==> 0 < s.seconds <= LongLongMax
  }

  function Render(ss: seq<Setting>): seq<string> {
    if |ss| == 0 then []
    else
      (match ss[0]
       case SetEndpoint(e) => ["--endpoint", e]
       case SetInterval(n) => ["--interval", Text(if n < 0 then 0 else n)]
       case SetHostname(h) => ["--hostname", h])
      + Render(ss[1..])
  }

  function Apply(ss: seq<Setting>, cfg: AgentConfig): AgentConfig {
    if |ss| == 0 then cfg
    else
      var cfg' := match ss[0]
        case SetEndpoint(e) => cfg.(endpoint := e)
        case SetInterval(n) => cfg.(interval := n)
        case SetHostname(h) => cfg.(hostname := h);
      Apply(ss[1..], cfg')
  }

  /**
   Writing any list of valid settings on the command line and parsing it gives
   the defaults with the settings applied in order, whatever the program name.
   */
  lemma RenderThenParse(program: string, ss: seq<Setting>)
    requires forall i :: 0 <= i < |ss| ==> ValidSetting(ss[i])
    ensures ParseArgs([program] + Render(ss)) == ParseResult(Ok, Apply(ss, DefaultConfig), "")
  {
    RenderThenScan(ss, DefaultConfig);
    assert ([program] + Render(ss))[1..] == Render(ss);
  }

  /** The scanner-level form of `RenderThenParse`, from any starting configuration. */
  lemma {:induction false} RenderThenScan(ss: seq<Setting>, cfg: AgentConfig)
    requires forall i :: 0 <= i < |ss| ==> ValidSetting(ss[i])
    ensures Scan(Render(ss), cfg) == ParseResult(Ok, Apply(ss, cfg), "")
    decreases |ss|
  {
    if |ss| > 0 {
      assert ValidSetting(ss[0]);
      var rest := Render(ss[1..]);
      match ss[0]
      case SetEndpoint(e) =>
        ScanEndpointStep(e, rest, cfg);
        RenderThenScan(ss[1..], cfg.(endpoint := e));
      case SetHostname(h) =>
        ScanHostnameStep(h, rest, cfg);
        RenderThenScan(ss[1..], cfg.(hostname := h));
      case SetInterval(n) =>
        ParseIntervalOfText(n);
        ScanIntervalStep(Text(n), rest, cfg);
        RenderThenScan(ss[1..], cfg.(interval := n));
    }
  }

  /** The argument lists of the repository's unit tests (with the default endpoint as the code has it). */
  lemma ParseArgsExamples()
    ensures ParseArgs(["simple-metrics-agent"]) == ParseResult(Ok, AgentConfig("127.0.0.1:9000", 5, ""), "")
    ensures ParseArgs(["simple-metrics-agent", "--help"]).status == Help
    ensures ParseArgs(["simple-metrics-agent", "-h"]).status == Help
    ensures ParseArgs(["simple-metrics-agent", "--endpoint", "example.com:1234"]).config.endpoint == "example.com:1234"
    ensures ParseArgs(["simple-metrics-agent", "--interval", "10"]).config.interval == 10
    ensures ParseArgs(["simple-metrics-agent", "--interval", "abc"]).status == Error
    ensures ParseArgs(["simple-metrics-agent", "--interval", "-5"]).status == Error
    ensures ParseArgs(["simple-metrics-agent", "--does-not-exist"]).status == Error
    ensures ParseArgs(["simple-metrics-agent", "--endpoint", "--help"]).config.endpoint == "--help"
  {
    ParseIntervalExamples();
    var p := "simple-metrics-agent";
    ScanEndpointStep("example.com:1234", [], DefaultConfig);
    assert [p, "--endpoint", "example.com:1234"][1..] == ["--endpoint", "example.com:1234"] + [];
    ScanIntervalStep("10", [], DefaultConfig);
    assert [p, "--interval", "10"][1..] == ["--interval", "10"] + [];
    ScanIntervalStep("abc", [], DefaultConfig);
    assert [p, "--interval", "abc"][1..] == ["--interval", "abc"] + [];
    ScanIntervalStep("-5", [], DefaultConfig);
    assert [p, "--interval", "-5"][1..] == ["--interval", "-5"] + [];
    ScanUnknown("--does-not-exist", [], DefaultConfig);
    assert [p, "--does-not-exist"][1..] == ["--does-not-exist"] + [];
    ScanEndpointStep("--help", [], DefaultConfig);
    assert [p, "--endpoint", "--help"][1..] == ["--endpoint", "--help"] + [];
  }
}

=== FILE: decimal.dfy ===
/**
 Decimal digit strings: the character class both the endpoint validator and the
 interval parser test against, the value of a digit string, and the canonical
 rendering of a natural number (no leading zeros) used to state round trips.
 */
module Decimal {

  predicate IsDigit(c: char) {
    '0' <= c <= '9'
  }

  predicate AllDigits(s: string) {
    forall i :: 0 <= i < |s| ==> IsDigit(s[i])
  }

  function DigitValue(c: char): (d: nat)
    requires IsDigit(c)
    ensures d < 10
  {
    c as int - '0' as int
  }

  function DigitChar(d: nat): (c: char)
    requires d < 10
    ensures IsDigit(c) && DigitValue(c) == d
  {
    ('0' as int + d) as char
  }

  /** The value of a digit string, most significant digit first; leading zeros are allowed. */
  function Value(s: string): nat
    requires AllDigits(s)
  {
    if |s| == 0 then 0 else 10 * Value(s[..|s| - 1]) + DigitValue(s[|s| - 1])
  }

  /** The canonical rendering of `n`: "0" for zero, otherwise no leading zero. */
  function Text(n: nat): (s: string)
    ensures |s| > 0 && AllDigits(s)
    ensures |s| > 1 ==> s[0] != '0'
    ensures n < 10 <==> |s| == 1
  {
    if n < 10 then [DigitChar(n)] else Text(n / 10) + [DigitChar(n % 10)]
  }

  /** Reading back a rendered number gives the number. */
  lemma {:induction false} ValueOfText(n: nat)
    ensures Value(Text(n)) == n
  {
    if n >= 10 {
      var s := Text(n);
      assert s[..|s| - 1] == Text(n / 10);
      ValueOfText(n / 10);
    }
  }

  /** A leading zero does not change the value of a digit string. */
  lemma {:induction false} LeadingZero(s: string)
    requires AllDigits(s)
    ensures AllDigits("0" + s) && Value("0" + s) == Value(s)
  {
    if |s| > 0 {
      var t := "0" + s;
      assert t[..|t| - 1] == "0" + s[..|s| - 1];
      LeadingZero(s[..|s| - 1]);
    }
  }
}

=== FILE: hostname.dfy ===
/**
 Hostname detection: `gethostname` fills a 256-byte buffer, the last byte is
 forced to NUL in case the name was truncated, and the name is the text before
 the first NUL. The buffer's contents after a successful call are the input.
 */
module Hostname {
  import opened PosixError

  const BufferSize: nat := 256
  const Nul: char := '\0'

  /** What `gethostname` did: failed (with errno's message), or filled the buffer. */
  datatype GetHostname = GetHostnameFailed(cause: string) | GetHostnameFilled(buffer: seq<char>)

  datatype HostnameResult = HostnameResult(ok: bool, hostname: string, error: string)

  const EmptyNameError: string := "gethostname returned empty name"

  /** The C string a buffer holds: everything before the first NUL (all of it when there is none). */
  function CString(buf: seq<char>): (s: string)
    ensures s <= buf
    ensures Nul !in s
    ensures |s| < |buf| ==> buf[|s|] == Nul
  {
    if |buf| == 0 || buf[0] == Nul then []
    else
      var s := [buf[0]] + CString(buf[1..]);
      assert buf == [buf[0]] + buf[1..];
      s
  }

  /** The buffer with its last byte overwritten by NUL. */
  function Terminate(buf: seq<char>): (t: seq<char>)
    requires |buf| == BufferSize
    ensures |t| == BufferSize && t[BufferSize - 1] == Nul
    ensures t[..BufferSize - 1] == buf[..BufferSize - 1]
  {
    buf[..BufferSize - 1] + [Nul]
  }

  /**
   A failure or an empty name gives `ok == false`, an empty hostname and an
   error message; otherwise the hostname is the non-empty text before the first
   NUL of the terminated buffer, at most 255 characters, and the error is empty.
   */
  function DetectHostname(g: GetHostname): (r: HostnameResult)
    requires g.GetHostnameFilled? ==> |g.buffer| == BufferSize
    ensures r.ok ==> |r.hostname| > 0 && r.error == []
    ensures r.ok ==> g.GetHostnameFilled? && |r.hostname| < BufferSize && Nul !in r.hostname && r.hostname <= g.buffer
    ensures !r.ok ==> r.hostname == [] && |r.error| > 0
    ensures g.GetHostnameFailed? ==> r == HostnameResult(false, [], ErrnoMessage("gethostname", g.cause))
    ensures g.GetHostnameFilled? ==> (r.ok <==> g.buffer[0] != Nul)
    ensures g.GetHostnameFilled? && g.buffer[0] == Nul ==> r.error == EmptyNameError
  {
    match g
    case GetHostnameFailed(cause) => HostnameResult(false, [], ErrnoMessage("gethostname", cause))
    case GetHostnameFilled(buffer) =>
      var t := Terminate(buffer);
      var name := CString(t);
      if |name| == 0 then HostnameResult(false, [], EmptyNameError)
      else
        assert name == t[..|name|];
        assert t[..|name|] == buffer[..|name|];
        HostnameResult(true, name, [])
  }

  /**
   A name of 1 to 255 characters without NUL, followed by a NUL and anything at
   all, is detected as exactly that name.
   */
  lemma {:induction false} DetectsWrittenName(name: string, rest: seq<char>)
    requires 0 < |name| < BufferSize && Nul !in name
    requires |name| + 1 + |rest| == BufferSize
    ensures DetectHostname(GetHostnameFilled(name + [Nul] + rest)) == HostnameResult(true, name, [])
  {
    var buf := name + [Nul] + rest;
    var t := Terminate(buf);
    assert t[..|name| + 1] == buf[..|name| + 1] == name + [Nul];
    CStringOfTerminated(name, t[|name| + 1..]);
    assert t == name + [Nul] + t[|name| + 1..];
  }

  lemma {:induction false} CStringOfTerminated(name: string, rest: seq<char>)
    requires Nul !in name
    ensures CString(name + [Nul] + rest) == name
    decreases |name|
  {
    var buf := name + [Nul] + rest;
    if |name| > 0 {
      assert buf[0] == name[0];
      assert buf[1..] == name[1..] + [Nul] + rest;
      CStringOfTerminated(name[1..], rest);
    }
  }

  /** A buffer whose first 255 bytes hold no NUL (a truncated name) yields those 255 bytes. */
  lemma TruncatedName(buf: seq<char>)
    requires |buf| == BufferSize
    requires Nul !in buf[..BufferSize - 1]
    ensures DetectHostname(GetHostnameFilled(buf)) == HostnameResult(true, buf[..BufferSize - 1], [])
  {
    var t := Terminate(buf);
    CStringOfTerminated(buf[..BufferSize - 1], []);
    assert t == buf[..BufferSize - 1] + [Nul] + [];
  }
}

=== FILE: metrics.dfy ===
/**
 Host-metrics collection: the decisions the sampler takes around the operating
 system's answers. Each OS query is replaced by its possible results, given as
 input. The C++ functions update an output `HostMetrics` and an output error
 string in place and return a flag; the model takes the prior values of both
 and returns the flag with their values afterwards.
 */
module Metrics {
  import opened PosixError

  const TwoTo64: int := 0x1_0000_0000_0000_0000

  type uint64 = x: int | 0 <= x < 0x1_0000_0000_0000_0000
  type uint32 = x: int | 0 <= x < 0x1_0000_0000

  /** Unsigned 64-bit multiplication, which wraps modulo 2^64. */
  function MulWrap(a: uint64, b: uint64): (p: uint64)
    ensures a * b < TwoTo64 ==> p == a * b
    ensures (a * b - p) % TwoTo64 == 0
  {
    (a * b) % TwoTo64
  }

  /** A `double` load average, kept as its bit pattern: the agent only copies these values. */
  datatype Load = Load(bits: bv64)

  /** The bit pattern of 0.0. */
  const ZeroLoad: Load := Load(0)

  datatype HostMetrics = HostMetrics(load1: Load, load5: Load, load15: Load, memTotalBytes: uint64, memFreeBytes: uint64)

  /** A value-initialised `HostMetrics`: all fields zero. */
  const DefaultMetrics: HostMetrics := HostMetrics(ZeroLoad, ZeroLoad, ZeroLoad, 0, 0)

  /** The returned flag and the values of the two output parameters after a call. */
  datatype Collected = Collected(ok: bool, out: HostMetrics, error: string)

  /** The `k`-th load field: 0 is the 1-minute, 1 the 5-minute, 2 the 15-minute average. */
  function LoadField(m: HostMetrics, k: nat): Load
    requires k < 3
  {
    if k == 0 then m.load1 else if k == 1 then m.load5 else m.load15
  }

  predicate SameLoads(a: HostMetrics, b: HostMetrics) {
    a.load1 == b.load1 && a.load5 == b.load5 && a.load15 == b.load15
  }

  predicate SameMemory(a: HostMetrics, b: HostMetrics) {
    a.memTotalBytes == b.memTotalBytes && a.memFreeBytes == b.memFreeBytes
  }

  // ---------------------------------------------------------------------------
  // load averages

  /** What `getloadavg` answered: -1 (with errno's message) or the samples it reported, in order. */
  datatype LoadAvg = LoadAvgFailed(cause: string) | LoadAvgReported(samples: seq<Load>)

  /**
   Copies the reported samples into the load fields: the k-th field is written
   exactly when at least k+1 samples were reported, and keeps its prior value
   otherwise. A failure changes no field.
   */
  function CollectLoad(out: HostMetrics, error: string, r: LoadAvg): (c: Collected)
    ensures r.LoadAvgFailed? ==> c == Collected(false, out, ErrnoMessage("getloadavg", r.cause))
    ensures r.LoadAvgReported? ==> c.ok && c.error == error && SameMemory(c.out, out)
    ensures r.LoadAvgReported? ==>
      forall k :: 0 <= k < 3 ==>
        LoadField(c.out, k) == (if k < |r.samples| then r.samples[k] else LoadField(out, k))
  {
    match r
    case LoadAvgFailed(cause) => Collected(false, out, ErrnoMessage("getloadavg", cause))
    case LoadAvgReported(samples) =>
      var n := |samples|;
      var out1 := if n >= 1 then out.(load1 := samples[0]) else out;
      var out2 := if n >= 2 then out1.(load5 := samples[1]) else out1;
      var out3 := if n >= 3 then out2.(load15 := samples[2]) else out2;
      Collected(true, out3, error)
  }

  /** Starting from a fresh struct, an average the platform did not report stays 0.0 and the call still succeeds. */
  lemma UnreportedLoadsStayZero(samples: seq<Load>, error: string)
    ensures var c := CollectLoad(DefaultMetrics, error, LoadAvgReported(samples));
      c.ok && forall k :: |samples| <= k < 3 ==> LoadField(c.out, k) == ZeroLoad
  {
  }

  // ---------------------------------------------------------------------------
  // Linux: sysinfo

  /** What `sysinfo` answered: failure, or the RAM totals in units of `memUnit` bytes. */
  datatype Sysinfo = SysinfoFailed(cause: string) | SysinfoReported(totalram: uint64, freeram: uint64, memUnit: uint32)

  /** The byte size of the unit `sysinfo` counts in; a unit of 0 counts as 1. */
  function UnitBytes(memUnit: uint32): (u: uint64)
    ensures u >= 1
    ensures memUnit > 0 ==> u == memUnit
  {
    if memUnit == 0 then 1 else memUnit
  }

  /**
   Memory on Linux: both fields are the reported counts times the unit size,
   as unsigned 64-bit products. A failure changes no field.
   */
  function CollectMemoryLinux(out: HostMetrics, error: string, r: Sysinfo): (c: Collected)
    ensures r.SysinfoFailed? ==> c == Collected(false, out, ErrnoMessage("sysinfo", r.cause))
    ensures r.SysinfoReported? ==> c.ok && c.error == error && SameLoads(c.out, out)
    ensures r.SysinfoReported? ==>
      && c.out.memTotalBytes == MulWrap(r.totalram, UnitBytes(r.memUnit))
      && c.out.memFreeBytes == MulWrap(r.freeram, UnitBytes(r.memUnit))
  {
    match r
    case SysinfoFailed(cause) => Collected(false, out, ErrnoMessage("sysinfo", cause))
    case SysinfoReported(totalram, freeram, memUnit) =>
      var unit := UnitBytes(memUnit);
      Collected(true, out.(memTotalBytes := MulWrap(totalram, unit), memFreeBytes := MulWrap(freeram, unit)), error)
  }

  /** A `mem_unit` of 0 gives exactly what a `mem_unit` of 1 gives: the raw counts. */
  lemma MemUnitZeroIsOne(out: HostMetrics, error: string, totalram: uint64, freeram: uint64)
    ensures CollectMemoryLinux(out, error, SysinfoReported(totalram, freeram, 0))
         == CollectMemoryLinux(out, error, SysinfoReported(totalram, freeram, 1))
    ensures CollectMemoryLinux(out, error, SysinfoReported(totalram, freeram, 0)).out.memTotalBytes == totalram
  {
  }

  /**
   When free RAM is at most total RAM and the total byte count fits in 64 bits,
   both fields are exact byte counts and free memory stays at most total.
   */
  lemma LinuxBytesExact(out: HostMetrics, error: string, totalram: uint64, freeram: uint64, memUnit: uint32)
    requires freeram <= totalram
    requires totalram * UnitBytes(memUnit) < TwoTo64
    ensures var c := CollectMemoryLinux(out, error, SysinfoReported(totalram, freeram, memUnit));
      && c.out.memTotalBytes == totalram * UnitBytes(memUnit)
      && c.out.memFreeBytes == freeram * UnitBytes(memUnit)
      && c.out.memFreeBytes <= c.out.memTotalBytes
  {
    var u := UnitBytes(memUnit);
    assert freeram * u <= totalram * u by {
      MulMonotone(freeram, totalram, u);
    }
  }

  lemma MulMonotone(a: nat, b: nat, u: nat)
    requires a <= b
    ensures a * u <= b * u
  {
  }

  /** The products are not saturated: 2^62 pages of 4 bytes wrap round to a total of 0. */
  lemma LinuxProductWraps(out: HostMetrics, error: string)
    ensures CollectMemoryLinux(out, error, SysinfoReported(0x4000_0000_0000_0000, 0, 4)).out.memTotalBytes == 0
  {
    assert 0x4000_0000_0000_0000 * 4 == TwoTo64;
  }

  // ---------------------------------------------------------------------------
  // macOS: sysctlbyname, host_statistics64, host_page_size

  datatype MemsizeQuery = MemsizeFailed(cause: string) | Memsize(bytes: uint64)
  datatype VmStatQuery = VmStatFailed | VmStat(freeCount: uint32, inactiveCount: uint32)
  datatype PageSizeQuery = PageSizeFailed | PageSize(bytes: uint64)

  /** The answers of the three macOS queries, in the order they are made. */
  datatype MacQueries = MacQueries(memsize: MemsizeQuery, vmstat: VmStatQuery, pageSize: PageSizeQuery)

  const VmStatError: string := "host_statistics64 failed"
  const PageSizeError: string := "host_page_size failed"

  /**
   Memory on macOS: the total is `hw.memsize`; the free figure is free plus
   inactive pages (a sum of two 32-bit counts, which cannot wrap) times the page
   size, as an unsigned 64-bit product. The queries are made in order and the
   first failure stops with its message, before either field is written.
   */
  function CollectMemoryMacos(out: HostMetrics, error: string, q: MacQueries): (c: Collected)
    ensures c.ok <==> q.memsize.Memsize? && q.vmstat.VmStat? && q.pageSize.PageSize?
    ensures !c.ok ==> c.out == out
    ensures q.memsize.MemsizeFailed? ==> c.error == ErrnoMessage("sysctlbyname(hw.memsize)", q.memsize.cause)
    ensures q.memsize.Memsize? && q.vmstat.VmStatFailed? ==> c.error == VmStatError
    ensures q.memsize.Memsize? && q.vmstat.VmStat? && q.pageSize.PageSizeFailed? ==> c.error == PageSizeError
    ensures c.ok ==> c.error == error && SameLoads(c.out, out) && c.out.memTotalBytes == q.memsize.bytes
    ensures c.ok ==> c.out.memFreeBytes == MulWrap(q.vmstat.freeCount + q.vmstat.inactiveCount, q.pageSize.bytes)
  {
    match q.memsize
    case MemsizeFailed(cause) => Collected(false, out, ErrnoMessage("sysctlbyname(hw.memsize)", cause))
    case Memsize(memsize) =>
      match q.vmstat
      case VmStatFailed => Collected(false, out, VmStatError)
      case VmStat(freeCount, inactiveCount) =>
        match q.pageSize
        case PageSizeFailed => Collected(false, out, PageSizeError)
        case PageSize(pageSize) =>
          var freePages: uint64 := freeCount + inactiveCount;
          Collected(true, out.(memTotalBytes := memsize, memFreeBytes := MulWrap(freePages, pageSize)), error)
  }

  /** With a page size below 2^31 the free byte count never wraps and is the exact number of bytes in free and inactive pages. */
  lemma MacosFreeBytesExact(out: HostMetrics, error: string, memsize: uint64, freeCount: uint32, inactiveCount: uint32, pageSize: uint64)
    requires pageSize < 0x8000_0000
    ensures CollectMemoryMacos(out, error, MacQueries(Memsize(memsize), VmStat(freeCount, inactiveCount), PageSize(pageSize))).out.memFreeBytes
         == (freeCount + inactiveCount) * pageSize
  {
    var pages := freeCount + inactiveCount;
    assert pages < 0x2_0000_0000;
    assert pages * pageSize < TwoTo64 by {
      MulMonotone(pages, 0x2_0000_0000, pageSize);
      MulStrict(pageSize, 0x8000_0000, 0x2_0000_0000);
    }
  }

  lemma MulStrict(a: nat, b: nat, u: nat)
    requires a < b && u > 0
    ensures u * a < u * b
  {
  }

  // ---------------------------------------------------------------------------
  // collect_host_metrics

  /** The platform the program was built for: it selects the memory source. */
  datatype Platform = Linux | MacOS | OtherPlatform

  /**
   Load first, then memory from the platform's source. A load failure returns
   before any memory source is consulted; a memory failure leaves the load
   fields already written and reports the memory source's own message; on a
   platform with no memory source the memory fields are left untouched. On
   success `error` is never written.
   */
  function CollectHostMetrics(platform: Platform, out: HostMetrics, error: string,
                              load: LoadAvg, sysinfo: Sysinfo, mac: MacQueries): (c: Collected)
    ensures c.ok <==>
      && load.LoadAvgReported?
      && (platform == Linux ==> sysinfo.SysinfoReported?)
      && (platform == MacOS ==> mac.memsize.Memsize? && mac.vmstat.VmStat? && mac.pageSize.PageSize?)
    ensures c.ok ==> c.error == error
    ensures load.LoadAvgFailed? ==> c == CollectLoad(out, error, load) && c.out == out
    ensures load.LoadAvgReported? ==> SameLoads(c.out, CollectLoad(out, error, load).out)
    ensures !c.ok || platform == OtherPlatform ==> SameMemory(c.out, out)
    ensures platform == Linux && load.LoadAvgReported? ==> c == CollectMemoryLinux(CollectLoad(out, error, load).out, error, sysinfo)
    ensures platform == MacOS && load.LoadAvgReported? ==> c == CollectMemoryMacos(CollectLoad(out, error, load).out, error, mac)
  {
    var loaded := CollectLoad(out, error, load);
    if !loaded.ok then loaded
    else
      match platform
      case Linux => CollectMemoryLinux(loaded.out, loaded.error, sysinfo)
      case MacOS => CollectMemoryMacos(loaded.out, loaded.error, mac)
      case OtherPlatform => loaded
  }
}

=== FILE: net.dfy ===
/**
 Parsing of the `host:port` endpoint text into its two parts. The C++ function
 fills an output `Endpoint` and an output error string and returns a flag; the
 model takes the prior values of both outputs and returns all three, so the
 contract can say which of them a call overwrites.
 */
module Net {
  import opened Decimal

  datatype Endpoint = Endpoint(host: string, port: string)

  /** The state of the three outputs of `parse_endpoint` after a call. */
  datatype EndpointParse = EndpointParse(ok: bool, out: Endpoint, error: string)

  const ShapeError: string := "expected endpoint in form host:port"
  const PortError: string := "port must be a decimal number"

  /** Index of the last occurrence of `c` in `text`, or -1 when there is none (`rfind`, with -1 for `npos`). */
  function LastIndexOf(text: string, c: char): (pos: int)
    ensures -1 <= pos < |text|
    ensures pos == -1 <==> c !in text
    ensures pos >= 0 ==> text[pos] == c && c !in text[pos + 1..]
  {
    if |text| == 0 then -1
    else if text[|text| - 1] == c then |text| - 1
    else
      var pos := LastIndexOf(text[..|text| - 1], c);
      assert text[..|text| - 1] + [text[|text| - 1]] == text;
      if pos >= 0 then
        assert text[pos + 1..] == text[..|text| - 1][pos + 1..] + [text[|text| - 1]];
        pos
      else pos
  }

  /** `ep` is `text` cut at its last colon into two non-empty parts. */
  predicate SplitAtLastColon(text: string, ep: Endpoint) {
    && text == ep.host + ":" + ep.port
    && ':' !in ep.port
    && |ep.host| > 0 && |ep.port| > 0
  }

  /**
   Splits `text` at its rightmost colon. A text without a colon, with the
   rightmost colon first or last, is refused with `ShapeError` and `out` is left
   as it was; otherwise `out` is overwritten with the two parts, and only then is
   the port checked to be all digits. On success `error` is left as it was.
   */
  function ParseEndpoint(text: string, out: Endpoint, error: string): (r: EndpointParse)
    ensures r.ok ==> SplitAtLastColon(text, r.out) && AllDigits(r.out.port) && r.error == error
    ensures !r.ok ==>
      || (r.error == ShapeError && r.out == out)
      || (r.error == PortError && SplitAtLastColon(text, r.out) && !AllDigits(r.out.port))
  {
    var pos := LastIndexOf(text, ':');
    if pos == -1 || pos == 0 || pos + 1 >= |text| then
      EndpointParse(false, out, ShapeError)
    else
      var split := Endpoint(text[..pos], text[pos + 1..]);
      assert text == split.host + ":" + split.port;
      if !AllDigits(split.port) then EndpointParse(false, split, PortError)
      else EndpointParse(true, split, error)
  }

  /** The three shapes refused before anything is stored: no colon, the last colon first, a colon last. */
  lemma ShapeRefusals(text: string, out: Endpoint, error: string)
    requires || ':' !in text
             || (|text| > 0 && text[0] == ':' && ':' !in text[1..])
             || (|text| > 0 && text[|text| - 1] == ':')
    ensures ParseEndpoint(text, out, error) == EndpointParse(false, out, ShapeError)
  {
    var pos := LastIndexOf(text, ':');
    if |text| > 0 && text[0] == ':' && ':' !in text[1..] {
      assert pos == 0;
    }
  }

  /**
   Every well-formed endpoint is accepted and split back into its parts, even a
   host that itself contains colons (an IPv6 literal, say): joining a non-empty
   host and a non-empty digit port with a colon and parsing the result gives the
   two parts back. With the success clauses of `ParseEndpoint`, acceptance holds
   exactly for texts of this form.
   */
  lemma JoinThenParse(host: string, port: string, out: Endpoint, error: string)
    requires |host| > 0 && |port| > 0 && AllDigits(port)
    ensures ParseEndpoint(host + ":" + port, out, error) == EndpointParse(true, Endpoint(host, port), error)
  {
    var text := host + ":" + port;
    assert ':' !in port by {
      forall i | 0 <= i < |port| ensures port[i] != ':' {
        assert IsDigit(port[i]);
      }
    }
    assert text[|host|] == ':';
    assert text[|host| + 1..] == port;
    var pos := LastIndexOf(text, ':');
    assert pos == |host|;
    assert text[..pos] == host;
  }

  /**
   A well-shaped text whose port is not all digits is refused with `PortError`,
   and `out` has already been overwritten with the split: a failed parse can
   leave partial state behind.
   */
  lemma PortRefusal(host: string, port: string, out: Endpoint, error: string)
    requires |host| > 0 && |port| > 0 && ':' !in port && !AllDigits(port)
    ensures ParseEndpoint(host + ":" + port, out, error) == EndpointParse(false, Endpoint(host, port), PortError)
  {
    var text := host + ":" + port;
    assert text[|host|] == ':';
    assert text[|host| + 1..] == port;
    var pos := LastIndexOf(text, ':');
    assert pos == |host|;
    assert text[..pos] == host;
  }

}

=== FILE: posix_error.dfy ===
/**
 The message `errno_message(what)` builds: the name of the failed call, a colon
 and a space, then the text the C++ runtime gives for the current errno. That
 text is not visible to the model, so it is a parameter (`cause`).
 */
module PosixError {

  function ErrnoMessage(what: string, cause: string): (m: string)
    ensures |m| >= |what| + 2 && m[..|what|] == what && m[|what|..|what| + 2] == ": "
  {
    what + ": " + cause
  }
}

=== FILE: tcp_client.dfy ===
/**
 The TCP delivery client: a two-state machine over one socket descriptor
 (`sock < 0` disconnected, `sock >= 0` connected). The operating system is
 replaced by explicit inputs: the resolver's answer with one outcome per
 address, and the sequence of values `send` returns. The process's table of
 open descriptors is part of the state (`open`), so that the contracts can say
 that no descriptor leaks and that the client never holds more than one.
 */
module TcpClient {
  import opened Net
  import opened PosixError

  datatype Client = Client(endpoint: Endpoint, sock: int)

  /** The outcome of one address the resolver returned: `socket` failed, or it gave `fd` and `connect` did or did not succeed. */
  datatype Attempt = SocketFailed | SocketOpened(fd: int, connects: bool)

  /** What `getaddrinfo` answered: an error (with the text `gai_strerror` gives) or the address list in order. */
  datatype Resolution = ResolveFailed(reason: string) | Resolved(addrs: seq<Attempt>)

  /** One return of `send`: a positive byte count, zero, -1 with `EINTR`, or -1 with another errno (its message text). */
  datatype SendReturn = Wrote(n: int) | WroteNothing | Interrupted | SendFailed(cause: string)

  const NotConnectedError: string := "socket is not connected"
  const PeerClosedError: string := "send returned 0 (connection closed)"
  const ResolveErrorPrefix: string := "getaddrinfo failed: "

  /** `is_connected`: the socket descriptor is non-negative. */
  predicate IsConnected(c: Client) {
    c.sock >= 0
  }

  /** The descriptors the client holds: none or its one socket. */
  function Held(c: Client): (h: set<int>)
    ensures |h| <= 1
    ensures h == {} <==> !IsConnected(c)
  {
    if IsConnected(c) then {c.sock} else {}
  }

  /** The client's state agrees with the descriptor table: `sock` is -1 or a descriptor that is open. */
  predicate Owns(c: Client, open: set<int>) {
    c.sock >= -1 && Held(c) <= open
  }

  /** No descriptor other than the client's own was opened or closed. */
  predicate NoLeak(c: Client, open: set<int>, c': Client, open': set<int>) {
    open' - Held(c') == open - Held(c)
  }

  /**
   For a client that agrees with the descriptor table, `is_connected` tells the
   two states apart: disconnected is exactly `sock == -1`, and connected is
   exactly holding an open descriptor.
   */
  lemma ConnectedState(c: Client, open: set<int>)
    requires Owns(c, open)
    ensures !IsConnected(c) <==> c.sock == -1
    ensures IsConnected(c) <==> c.sock in open && c.sock >= 0
  {
  }

  /** A freshly constructed client holds nothing. */
  function NewClient(endpoint: Endpoint): (c: Client)
    ensures !IsConnected(c) && c.endpoint == endpoint
    ensures forall open :: Owns(c, open)
  {
    Client(endpoint, -1)
  }

  datatype Closed = Closed(client: Client, open: set<int>)

  /**
   Closes the socket if one is held. From either state the client ends
   disconnected; a descriptor is released only when one was held.
   */
  function Close(c: Client, open: set<int>): (r: Closed)
    requires Owns(c, open)
    ensures !IsConnected(r.client) && r.client.endpoint == c.endpoint
    ensures Owns(r.client, r.open)
    ensures r.open == open - Held(c)
    ensures IsConnected(c) ==> |r.open| == |open| - 1
    ensures !IsConnected(c) ==> r == Closed(c, open)
  {
    if IsConnected(c) then Closed(c.(sock := -1), open - {c.sock}) else Closed(c, open)
  }

  /** Closing twice is the same as closing once. */
  lemma CloseIdempotent(c: Client, open: set<int>)
    requires Owns(c, open)
    ensures Close(Close(c, open).client, Close(c, open).open) == Close(c, open)
  {
  }

  /** The `j`-th address produced a socket that connected. */
  predicate ConnectsAt(addrs: seq<Attempt>, j: int)
    requires 0 <= j < |addrs|
  {
    addrs[j].SocketOpened? && addrs[j].connects
  }

  /** The descriptors `socket` hands out are valid and not already open (the kernel never reuses a live descriptor). */
  predicate FreshDescriptors(addrs: seq<Attempt>, open: set<int>) {
    forall j :: 0 <= j < |addrs| && addrs[j].SocketOpened? ==> addrs[j].fd >= 0 && addrs[j].fd !in open
  }

  /**
   Opens a connection to the client's endpoint. When already connected it
   succeeds at once without consulting the resolver. Otherwise it walks the
   resolved addresses in order, closes the socket of every failed attempt, and
   keeps the first socket that connects. A resolver error, or every address
   failing, leaves the client disconnected with an error message. `tried` is
   the number of addresses examined; `error` is left as `err` on success.
   */
  method Connect(c: Client, open: set<int>, res: Resolution, cause: string, err: string)
    returns (c': Client, open': set<int>, ok: bool, error: string, tried: nat)
    requires Owns(c, open)
    requires !IsConnected(c) && res.Resolved? ==> FreshDescriptors(res.addrs, open)
    ensures Owns(c', open') && NoLeak(c, open, c', open')
    ensures c'.endpoint == c.endpoint
    ensures ok <==> IsConnected(c')
    ensures ok ==> error == err
    ensures IsConnected(c) ==> ok && c' == c && open' == open && tried == 0
    ensures !IsConnected(c) && res.ResolveFailed? ==>
      !ok && c' == c && open' == open && tried == 0 && error == ResolveErrorPrefix + res.reason
    ensures !IsConnected(c) && res.Resolved? ==>
      (ok <==> exists j :: 0 <= j < |res.addrs| && ConnectsAt(res.addrs, j))
    ensures !IsConnected(c) && res.Resolved? && ok ==>
      && 1 <= tried <= |res.addrs|
      && res.addrs[tried - 1] == SocketOpened(c'.sock, true)
      && (forall j :: 0 <= j < tried - 1 ==> !ConnectsAt(res.addrs, j))
      && open' == open + {c'.sock}
    ensures !IsConnected(c) && res.Resolved? && !ok ==>
      c' == c && open' == open && tried == |res.addrs| && error == ErrnoMessage("connect", cause)
  {
    c', open', ok, error, tried := c, open, false, err, 0;
    if IsConnected(c) {
      ok := true;
      return;
    }
    match res
    case ResolveFailed(reason) =>
      error := ResolveErrorPrefix + reason;
    case Resolved(addrs) =>
      var i := 0;
      while i < |addrs|
        invariant 0 <= i <= |addrs|
        invariant c' == c && open' == open
        invariant forall j :: 0 <= j < i ==> !ConnectsAt(addrs, j)
      {
        match addrs[i] {
          case SocketFailed =>
          case SocketOpened(fd, connects) =>
            open' := open' + {fd};
            if connects {
              assert ConnectsAt(addrs, i);
              c' := c.(sock := fd);
              ok, tried := true, i + 1;
              return;
            }
            open' := open' - {fd};
        }
        i := i + 1;
      }
      tried := |addrs|;
      error := ErrnoMessage("connect", cause);
  }

  /**
   The sequence of `send` returns is honest and long enough to end the loop:
   every positive count is at most what is still to be written, and the
   sequence does not run out before either `remaining` bytes are written or a
   zero or an error other than `EINTR` comes back.
   */
  predicate Completes(rs: seq<SendReturn>, remaining: nat)
    decreases |rs|
  {
    || remaining == 0
    || (|rs| > 0 &&
        match rs[0]
        case Wrote(n) => 0 < n <= remaining && Completes(rs[1..], remaining - n)
        case Interrupted => Completes(rs[1..], remaining)
        case WroteNothing => true
        case SendFailed(_) => true)
  }

  /** The returns deliver all `remaining` bytes: positive writes and interruptions only, until nothing is left. */
  predicate Delivers(rs: seq<SendReturn>, remaining: nat)
    decreases |rs|
  {
    || remaining == 0
    || (|rs| > 0 &&
        match rs[0]
        case Wrote(n) => 0 < n <= remaining && Delivers(rs[1..], remaining - n)
        case Interrupted => Delivers(rs[1..], remaining)
        case WroteNothing => false
        case SendFailed(_) => false)
  }

  /**
   The state a send leaves behind: the client still agrees with the descriptor
   table, nothing leaked, and what reached the socket is a prefix of the data.
   On success nothing changed and all of the data was sent; on failure the
   client is disconnected, having released exactly the socket it held, and a
   connected client sent strictly less than the data.
   */
  predicate SendLeaves(c: Client, open: set<int>, data: string, ok: bool, c': Client, open': set<int>, sent: string) {
    && Owns(c', open') && NoLeak(c, open, c', open') && c'.endpoint == c.endpoint
    && sent <= data
    && (ok ==> sent == data && c' == c && open' == open)
    && (!ok ==> !IsConnected(c') && open' == open - Held(c))
    && (!ok && IsConnected(c) ==> |sent| < |data|)
    && (!IsConnected(c) ==> c' == c)
  }

  /** A `send` return after which the loop carries on: some bytes written, or `EINTR`. */
  predicate Progresses(r: SendReturn) {
    r.Wrote? || r.Interrupted?
  }

  /** The number of bytes a sequence of `send` returns reports written. */
  function Written(rs: seq<SendReturn>): int {
    if |rs| == 0 then 0
    else Written(rs[..|rs| - 1]) + (if rs[|rs| - 1].Wrote? then rs[|rs| - 1].n else 0)
  }

  /** The error a failed `send` return is reported with. */
  predicate ReportsReturn(r: SendReturn, error: string) {
    || (r == WroteNothing && error == PeerClosedError)
    || (r.SendFailed? && error == ErrnoMessage("send", r.cause))
  }

  /**
   How a send reports itself: not connected gives the fixed message with no
   call and nothing sent; empty data makes no call; every return before the
   last one consumed made progress, so a failure stops at the first zero or
   error return and is reported with its message; on success every return made
   progress and the last is the write that empties the buffer; the bytes sent
   are the sum of the counts returned; success leaves `error` as it was.
   */
  predicate SendReports(c: Client, data: string, results: seq<SendReturn>, err: string,
                        ok: bool, error: string, sent: string, calls: nat) {
    && calls <= |results|
    && (ok ==> error == err)
    && (!IsConnected(c) ==> error == NotConnectedError && calls == 0 && sent == [])
    && (IsConnected(c) ==> (calls == 0 <==> |data| == 0))
    && (IsConnected(c) && !ok ==> 1 <= calls && ReportsReturn(results[calls - 1], error))
    && (forall j :: 0 <= j < calls - 1 ==> Progresses(results[j]))
    && (ok ==> forall j :: 0 <= j < calls ==> Progresses(results[j]))
    && (ok && calls > 0 ==> results[calls - 1].Wrote?)
    && (IsConnected(c) ==> |sent| == Written(results[..calls]))
  }

  /**
   Writes all of `data`, looping over partial writes and retrying on `EINTR`.
   `sent` is what reached the socket, `calls` the number of `send` calls made.
   It succeeds exactly when connected and the returns deliver every byte; a
   zero return or another error closes the socket.
   */
  method SendAll(c: Client, open: set<int>, data: string, results: seq<SendReturn>, err: string)
    returns (c': Client, open': set<int>, ok: bool, error: string, sent: string, calls: nat)
    requires Owns(c, open)
    requires IsConnected(c) ==> Completes(results, |data|)
    ensures ok <==> IsConnected(c) && Delivers(results, |data|)
    ensures SendLeaves(c, open, data, ok, c', open', sent)
    ensures SendReports(c, data, results, err, ok, error, sent, calls)
  {
    c', open', error, sent, calls := c, open, err, [], 0;
    if !IsConnected(c) {
      ok := false;
      error := NotConnectedError;
      return;
    }
    var pos := 0;
    while pos < |data|
      invariant 0 <= pos <= |data| && calls <= |results|
      invariant sent == data[..pos]
      invariant calls == 0 ==> pos == 0
      invariant |data| == 0 ==> calls == 0
      invariant Completes(results[calls..], |data| - pos)
      invariant Delivers(results[calls..], |data| - pos) == Delivers(results, |data|)
      invariant c' == c && open' == open && error == err
      invariant forall j :: 0 <= j < calls ==> Progresses(results[j])
      invariant pos == Written(results[..calls])
      invariant calls > 0 && !results[calls - 1].Wrote? ==> pos < |data|
      decreases |results| - calls
    {
      var r := results[calls];
      assert results[..calls + 1][..calls] == results[..calls];
      calls := calls + 1;
      match r {
        case Interrupted =>
        case Wrote(n) =>
          sent := sent + data[pos..pos + n];
          pos := pos + n;
        case WroteNothing =>
          error := PeerClosedError;
          var closed := Close(c', open');
          c', open', ok := closed.client, closed.open, false;
          return;
        case SendFailed(cause) =>
          error := ErrnoMessage("send", cause);
          var closed := Close(c', open');
          c', open', ok := closed.client, closed.open, false;
          return;
      }
    }
    ok := true;
  }

  /**
   Writes `line` followed by a newline: exactly a `SendAll` of `line + "\n"`,
   so a connected client always makes at least one `send` call.
   */
  method SendLine(c: Client, open: set<int>, line: string, results: seq<SendReturn>, err: string)
    returns (c': Client, open': set<int>, ok: bool, error: string, sent: string, calls: nat)
    requires Owns(c, open)
    requires IsConnected(c) ==> Completes(results, |line| + 1)
    ensures ok <==> IsConnected(c) && Delivers(results, |line| + 1)
    ensures ok ==> sent == line + "\n"
    ensures SendLeaves(c, open, line + "\n", ok, c', open', sent)
    ensures SendReports(c, line + "\n", results, err, ok, error, sent, calls)
    ensures IsConnected(c) ==> calls >= 1
  {
    c', open', ok, error, sent, calls := SendAll(c, open, line + "\n", results, err);
  }
}
